=== FILE: README.md ===
# Tradeshow Meetings Assistant — a Dafny model of its schedule logic

The Tradeshow Meetings Assistant is a single-page planner for a trade show.
It keeps three slices of state:

- a list of meetings, each with a start, an end and attendees;
- a list of travel bookings;
- a link to the team's assistant.

It also keeps an *active date*. The schedule shows:

- the meetings of the active date, sorted by start;
- an hourly grid from 07:00 to 19:00;
- arrows that step through the days that have meetings.

Every slice persists under its own key in local storage. All three slices can be
exported to one JSON document and imported back.

This project models the logic behind those views and handlers, all of it in
`App.tsx`, as pure Dafny functions over immutable data. It proves the properties
the application relies on.

| file | module | what it holds |
|---|---|---|
| `options.dfy` | `Options` | `Option` |
| `calendar.dfy` | `Calendar` | proleptic Gregorian day number ⇄ (year, month, day) |
| `js.dfy` | `Js` | JavaScript truthiness and the `||` fallback |
| `time.dfy` | `Time` | instants in milliseconds, local day, `SameDay`, local midnight, local hour |
| `seqs.dfy` | `Seqs` | filter, stable insertion sort, dedup, subsequences, by-index update/remove |
| `records.dfy` | `Records` | `Attendee`, `Meeting`, `Travel` |
| `schedule.dfy` | `Schedule` | the active day's meetings, the meeting days, stepping the active day |
| `hourly.dfy` | `Hourly` | the 13-slot hourly grid |
| `byid.dfy` | `ById` | append, replace-by-id, delete-by-id |
| `editors.dfy` | `Editors` | attendee editing, new records, save guards, trimming the link |
| `state.dfy` | `State` | the application state |
| `transfer.dfy` | `Transfer` | export and import of the JSON document |
| `store.dfy` | `Store` | load with fallback and best-effort save of one slice |
| `planner.dfy` | `Planner` | the main component's handlers and the views they feed |

## Time

An instant is an integer count of milliseconds. Local time is the instant
shifted by the zone's offset from UTC, `Time.UtcOffsetMs`. The constant is
declared without a value, so every theorem holds whatever the (fixed) offset is. The local day is the floor of the shifted instant
divided by a day.

`sameDay` in the source compares `getFullYear`, `getMonth` and `getDate`.
`Time.SameDay` compares local day numbers. `Time.SameDayIffSameDate` proves the
two agree, through the calendar round trip `Calendar.CivilRoundTrip`.

## Behaviour worth noting

- **Hourly slots.** Slots sit on whole hours only, so a meeting starting at
  09:30 first appears in the 10:00 slot. With A at 09:00–10:00 and B at
  09:30–10:30, the 09:00 slot holds A alone and the 10:00 slot holds B alone
  (`Hourly.TwoMeetingExample`).
- **Which fields an import replaces.** An import replaces the meetings or travel
  slice when that field is *truthy*, not merely present. A present empty array
  still replaces, since arrays are truthy. A `gptUrl` that is present but not a
  string is handled by value:
  - a falsy value clears the link, because of `|| ""`;
  - a truthy non-string value is ignored, because of `typeof g === "string"`.
- **Save guards.** The meeting and travel save buttons test `!title` and
  `!draft.label`. Only an empty string is refused; a title of spaces is accepted.
  The link editor alone trims before testing.

## Model

| member | source | states |
|---|---|---|
| Calendar.CivilFromDays | App.tsx:90-98 | the civil date of a day number is a real date: month 1..12, day at most the month's length (29 February only in Gregorian leap years) |
| Calendar.CivilRoundTrip | App.tsx:90-98 | turning a day number into (year, month, day) and back gives the same day number |
| Calendar.CivilInjective | App.tsx:90-98 | distinct day numbers have distinct civil dates, so comparing dates is comparing days |
| Calendar.JanuaryFirstAgrees | App.tsx:90-98 | 1 January of every year lands on the day ECMAScript's DayFromYear gives |
| Time.LocalDate | App.tsx:91-96 | `getFullYear`/`getMonth`/`getDate`: a real date (day within its month's length) whose day number is the instant's local day |
| Time.SameDayIffSameDate | App.tsx:90-98 | two instants are on the same local day iff their local year, month and day are equal |
| Time.SameDayIsEquivalence | App.tsx:90-98 | same-day is reflexive, symmetric and transitive |
| Time.LocalMidnight | App.tsx:250-255 | `new Date(toDateString())` is the first instant of the instant's local day: on the same day, at or before the instant and at or before every other instant of that day, less than a day earlier |
| Time.SameMidnightIffSameDay | App.tsx:250-255 | two instants have the same local midnight iff they are on the same day |
| Time.AtLocalHour | App.tsx:478-479 | `setHours(h, 0, 0, 0)` stays on the same day, h hours after its midnight |
| Seqs.Filter | App.tsx:246 | an element is kept iff it is in the list and passes the test |
| Seqs.FilterCounts | App.tsx:246 | filtering keeps every passing element as often as it occurred and drops the rest |
| Seqs.FilterIsSubsequence | App.tsx:246 | filtering keeps the list's order |
| Seqs.SortBy | App.tsx:247 | sorting yields a permutation ordered by the key |
| Seqs.SortStable | App.tsx:247 | sorting keeps elements with equal keys in their original order |
| Seqs.Dedup | App.tsx:251 | `Array.from(new Set(...))` keeps each value once, and only the values present |
| Seqs.SortDistinctIsStrict | App.tsx:251-254 | sorting distinct values gives a strictly increasing sequence |
| Seqs.ReplaceAt | App.tsx:582-587 | position idx gets the new value and the rest stay; an index outside the list changes nothing |
| Seqs.RemoveAt | App.tsx:604-608 | position idx is removed and the rest keep their order; an index outside the list changes nothing |
| Schedule.OnDay | App.tsx:246 | the meetings kept are exactly those starting on the active day, each as often as in the list, in list order |
| Schedule.DayMeetings | App.tsx:243-249 | the active day's meetings are exactly those starting on that local day, as a permutation of them, sorted by start, with equal starts in list order |
| Schedule.StartsOnDay | App.tsx:243-249 | the day's meetings at one start time are the whole list's meetings at that time, or none when the time is on another day |
| Schedule.StartDays | App.tsx:251 | one entry per meeting, in list order, each the local midnight of that meeting's start |
| Schedule.Days | App.tsx:250-255 | the meeting days are strictly increasing local midnights, one for each day on which some meeting starts, no two on the same day |
| Schedule.FindDay | App.tsx:257 | `findIndex` returns the first position on the active day, or -1 iff there is none |
| Schedule.ShiftDay | App.tsx:256-260 | stepping moves to the neighbour of the first matching day when one exists and stays put otherwise; from an unlisted day, Next goes to the first day |
| Schedule.ShiftOnMeetingDays | App.tsx:256-260 | from the i-th meeting day, stepping reaches day i±1, or stays at either end |
| Schedule.NextThenPrevious | App.tsx:256-260 | forward then back returns to the starting day |
| Schedule.PreviousThenNext | App.tsx:256-260 | back then forward returns to the starting day |
| Hourly.Occupying | App.tsx:484-486 | a slot's meetings are exactly those with start ≤ h < end, each as often as in the day's list, in day order |
| Hourly.HourlyGrid | App.tsx:476-486 | 13 slots, the i-th at local 07:00 + i hours of the active day, each holding exactly the meetings running at that instant, with their multiplicities, in order |
| Hourly.SlotsKeepDayOrder | App.tsx:243-249 | every slot lists its meetings sorted by start |
| Hourly.SlotBoundaries | App.tsx:484-486 | a meeting ending at the slot is out, one starting at it is in, a zero-length one is in no slot |
| Hourly.TwoMeetingExample | App.tsx:243-249 | 09:00–10:00 A and 09:30–10:30 B: the agenda is [A, B], the 09:00 slot holds [A], the 10:00 slot holds [B] |
| ById.Append | App.tsx:332 | adding puts the new record after all existing ones |
| ById.ReplaceById | App.tsx:321-322 | every record with the edited id becomes the edited record; the others stay in place |
| ById.DeleteById | App.tsx:324 | the records left are exactly those without the id, in order, each as often as before |
| ById.ReplaceKeepsIds | App.tsx:321-322 | an edit never changes which id sits where, so unique ids stay unique |
| ById.ReplaceIdempotent | App.tsx:352-353 | saving the same edit twice is saving it once |
| ById.ReplaceUnique | App.tsx:321-322 | with unique ids an edit replaces exactly the one matching position |
| ById.ReplaceAbsent | App.tsx:342 | editing a record whose id is not in the list changes nothing |
| ById.DeleteUnique | App.tsx:343 | with unique ids a delete removes exactly the matching position |
| ById.DeleteAbsent | App.tsx:324 | deleting an id nobody carries changes nothing |
| ById.DeleteAfterAppend | App.tsx:341-343 | deleting a record just added with a fresh id gives back the list |
| ById.AppendFreshKeepsUnique | App.tsx:341 | adding under a fresh id keeps ids unique |
| ById.DeleteKeepsUnique | App.tsx:343 | deleting keeps ids unique |
| ById.ReplaceAfterDelete | App.tsx:321-324 | an edit committed after its record was deleted does not bring it back |
| Editors.UpdateAttendee | App.tsx:582-587 | only position idx of the attendees changes, to the given attendee; every other field of the draft is kept |
| Editors.AddAttendee | App.tsx:588-603 | one attendee is appended after the existing ones, with the fresh id, an empty name and every optional text field empty; nothing else changes |
| Editors.RemoveAttendee | App.tsx:604-608 | position idx leaves the attendees, the rest keep their order; an index outside the list removes nothing |
| Editors.RemoveUndoesAdd | App.tsx:588-608 | removing the attendee just added gives back the draft |
| Editors.UpdateLaws | App.tsx:582-587 | writing back the attendee already there changes nothing; a second update of a position overrides the first |
| Editors.CanSaveMeeting | App.tsx:572 | `disabled={!title}`: saving is allowed iff the title is truthy as a JavaScript string |
| Editors.CanSaveTravel | App.tsx:829 | `disabled={!draft.label}`: saving is allowed iff the label is truthy as a JavaScript string |
| Editors.NewMeeting | App.tsx:525-535 | a new meeting keeps the dialog's id, title, description, location, booth, start and end and has no attendees, talking points or checklist |
| Editors.BlankTravel | App.tsx:749-755 | the new-travel draft is a flight with an empty label, empty confirmation and details, and no start or end |
| Editors.Trim | App.tsx:890 | `trim()` gives a string no longer than its input, with no white space at either end |
| Editors.TrimIsInfix | App.tsx:890 | the trimmed string is what lies between a white-space prefix and a white-space suffix of the input |
| Editors.TrimIdempotent | App.tsx:890 | trimming twice is trimming once |
| Editors.TrimEmptyIffBlank | App.tsx:929 | a draft trims to nothing iff it is all white space |
| Editors.SaveLink | App.tsx:889-892 | an all-white-space draft cannot be saved; any other saves as a non-empty trimmed link |
| Js.Or | App.tsx:969 | `v || f` is `v` when `v` is truthy and `f` otherwise, so `null || ""` is `""` |
| Transfer.Export | App.tsx:955 | the exported document holds the three slices |
| Transfer.OnImport | App.tsx:273-277 | each given list replaces its slice; the link is replaced only by a string |
| Transfer.ImportFile | App.tsx:963-972 | an unreadable file changes nothing; each truthy list field replaces its slice; a present link field sets the link when it is a string, clears it when falsy and is ignored otherwise; the active date never changes |
| Transfer.ImportExportRoundTrip | App.tsx:955-972 | importing an exported document restores all three slices, into any state |
| Transfer.TravelOnlyImport | App.tsx:963-972 | a document with travel only replaces the travel and nothing else |
| Transfer.ImportIdempotent | App.tsx:963-972 | importing a document twice is importing it once |
| Store.Load | App.tsx:208-217 | a missing or empty entry, or one that fails to decode, loads the default; otherwise the decoded value |
| Store.Save | App.tsx:218-221 | a successful write sets only that key; a failed one leaves the store unchanged |
| Store.LoadAfterSave | App.tsx:208-221 | a saved value loads back when its encoding decodes to it |
| Store.SaveLeavesOtherKeys | App.tsx:208-221 | saving one key never changes what another key loads |
| Store.SliceKeysDistinct | App.tsx:207-237 | the three slices live under three different keys |
| Planner.Agenda | App.tsx:243-249 | the agenda holds exactly the meetings starting on the active day, each as often as in the list, sorted by start, meetings with equal starts in list order |
| Planner.Grid | App.tsx:329 | 13 slots at local 07:00, 08:00, … of the active day; a slot holds exactly the meetings that start on the active day and are running at the slot's instant, each as often as in the list, in agenda order |
| Planner.AddMeeting | App.tsx:332 | with the save button enabled only for a non-empty title (line 572), a titled meeting is appended after the existing ones; an untitled one changes nothing; other slices are untouched |
| Planner.EditMeeting | App.tsx:321-322 | only meetings with the edited id change, to the edited meeting; other slices are untouched |
| Planner.DeleteMeeting | App.tsx:324 | exactly the meetings without the id remain, each as often as before, in order; other slices are untouched |
| Planner.AddTravel | App.tsx:341 | with the save button enabled only for a non-empty label (line 829), a labelled booking is appended after the existing ones; an unlabelled one changes nothing |
| Planner.UpdateTravel | App.tsx:342 | only bookings with the edited id change; other slices are untouched |
| Planner.DeleteTravel | App.tsx:343 | exactly the bookings without the id remain, each as often as before, in order; other slices are untouched |
| Planner.SetLink | App.tsx:889-892 | a blank draft leaves the state as it was; otherwise the link becomes the trimmed draft (non-empty, trimmed) and nothing else changes |
| Planner.ShiftActiveDay | App.tsx:256-260 | from the i-th meeting day the active date moves to day i-1 or i+1, or stays at either end; from a day with no meetings Next goes to the first meeting day and Previous stays; nothing else changes |
| Planner.AddedMeetingOnItsDay | App.tsx:243-249 | a titled meeting added on the active day shows in that day's agenda |
| Planner.DeleteUndoesAdd | App.tsx:324-332 | adding a meeting with a fresh id and deleting that id restores the state |
| Planner.DeleteLeavesViews | App.tsx:324 | after a delete, the agenda and each hourly slot hold what they held before, less the deleted id |
| Planner.TravelLeavesSchedule | App.tsx:341-343 | travel changes never alter the agenda |

## Left out

- React rendering, dialogs, the agenda/hourly tab and formatting (`fmtTime`, `fmtDate`): these are presentation only.
- Browser storage. `localStorage` is modelled as a map from strings to strings, and a failed write is a boolean input. JSON encoding and decoding are function parameters.
- JSON parsing, `JSON.stringify`, the Blob download and `file.text()` are not modelled. The parsed document is a datatype with an "unreadable" case.
- ISO-string parsing and daylight saving. Instants are integers, and the local zone is a fixed offset from UTC (any offset, left open) that never changes, so days are always 24 hours long.
- `hoursBetween`: it is floating-point arithmetic for display only.
- `uid()`: it is random. Ids are inputs, and nothing assumes they are unique except where a lemma states it as a hypothesis.
- The `datetime-local` string conversions and the default one-hour duration of a new meeting: they are Date-string quirks. `Editors.NewMeeting` takes start and end as given.
- The seed data and the initial active date taken from it.
- Transfer.ImportFile: a `meetings` or `travel` field that is truthy but not an array (for example a non-empty string) is stored as is by the source. The model only admits lists there.
- Transfer.ImportFile: JSON numbers are modelled as integers. Fractional numbers only matter through their truthiness, which an integer stands in for.
- Meeting end before start is neither checked by the source nor assumed by the model.

=== FILE: byid.dfy ===
/** The list updaters the application applies to its meeting and travel
    lists: append a new record, replace the record(s) carrying an id, and
    delete the record(s) carrying an id.  Ids come from a random generator
    and nothing enforces their uniqueness, so the operations are stated for
    any list and uniqueness appears only as a hypothesis. */
module ById {
  import opened Records
  import opened Seqs

  /** No id occurs twice. */
  ghost predicate UniqueIds<T>(xs: seq<T>, idOf: T -> Id)
  {
    forall i, j :: 0 <= i < j < |xs| ==> idOf(xs[i]) != idOf(xs[j])
  }

  /** Some element of `xs` carries `id`. */
  ghost predicate HasId<T>(xs: seq<T>, idOf: T -> Id, id: Id)
  {
    exists i :: 0 <= i < |xs| && idOf(xs[i]) == id
  }

  /** The updater for "add": `prev => [...prev, x]`. */
  function Append<T>(xs: seq<T>, x: T): (r: seq<T>)
    ensures |r| == |xs| + 1 && r[..|xs|] == xs && r[|xs|] == x
  {
    xs + [x]
  }

  /** The updater for "edit": `prev => prev.map(x => x.id === u.id ? u : x)`. */
  function ReplaceById<T>(xs: seq<T>, idOf: T -> Id, u: T): (r: seq<T>)
    ensures |r| == |xs|
    ensures forall i :: 0 <= i < |xs| ==> r[i] == if idOf(xs[i]) == idOf(u) then u else xs[i]
  {
    if xs == [] then []
    else [if idOf(xs[0]) == idOf(u) then u else xs[0]] + ReplaceById(xs[1..], idOf, u)
  }

  /** The updater for "delete": `prev => prev.filter(x => x.id !== id)`. */
  function DeleteById<T(!new)>(xs: seq<T>, idOf: T -> Id, id: Id): (r: seq<T>)
    ensures forall x :: x in r <==> x in xs && idOf(x) != id
    ensures forall x :: multiset(r)[x] == if idOf(x) != id then multiset(xs)[x] else 0
    ensures IsSubsequence(r, xs)
  {
    FilterCounts(xs, x => idOf(x) != id);
    FilterIsSubsequence(xs, x => idOf(x) != id);
    Filter(xs, x => idOf(x) != id)
  }

  /** Replacing never changes which id sits at which position. */
  lemma ReplaceKeepsIds<T>(xs: seq<T>, idOf: T -> Id, u: T)
    ensures forall i :: 0 <= i < |xs| ==> idOf(ReplaceById(xs, idOf, u)[i]) == idOf(xs[i])
    ensures UniqueIds(xs, idOf) ==> UniqueIds(ReplaceById(xs, idOf, u), idOf)
  {
  }

  /** Replacing twice with the same record is replacing once. */
  lemma ReplaceIdempotent<T>(xs: seq<T>, idOf: T -> Id, u: T)
    ensures ReplaceById(ReplaceById(xs, idOf, u), idOf, u) == ReplaceById(xs, idOf, u)
  {
  }

  /** With unique ids, replacing the record at position `i` is an update of that position only. */
  lemma ReplaceUnique<T>(xs: seq<T>, idOf: T -> Id, u: T, i: int)
    requires UniqueIds(xs, idOf) && 0 <= i < |xs| && idOf(xs[i]) == idOf(u)
    ensures ReplaceById(xs, idOf, u) == xs[i := u]
  {
  }

  /** Replacing by an id nobody carries changes nothing. */
  lemma ReplaceAbsent<T>(xs: seq<T>, idOf: T -> Id, u: T)
    requires !HasId(xs, idOf, idOf(u))
    ensures ReplaceById(xs, idOf, u) == xs
  {
  }

  /** With unique ids, deleting the id of the record at position `i` removes
      exactly that position. */
  lemma DeleteUnique<T(!new)>(xs: seq<T>, idOf: T -> Id, i: int)
    requires UniqueIds(xs, idOf) && 0 <= i < |xs|
    ensures DeleteById(xs, idOf, idOf(xs[i])) == xs[..i] + xs[i + 1..]
  {
    var id := idOf(xs[i]);
    var p := x => idOf(x) != id;
    assert xs == xs[..i] + ([xs[i]] + xs[i + 1..]);
    FilterAppend(xs[..i], [xs[i]] + xs[i + 1..], p);
    FilterCons(xs[i], xs[i + 1..], p);
    FilterAll(xs[..i], p);
    FilterAll(xs[i + 1..], p);
  }

  /** Deleting the id of a record just appended with a fresh id gives back the list before it. */
  lemma DeleteAfterAppend<T(!new)>(xs: seq<T>, idOf: T -> Id, x: T)
    requires !HasId(xs, idOf, idOf(x))
    ensures DeleteById(Append(xs, x), idOf, idOf(x)) == xs
  {
    var p := y => idOf(y) != idOf(x);
    FilterAppend(xs, [x], p);
    FilterCons(x, [], p);
    FilterAll(xs, p);
  }

  /** Deleting an id no record carries changes nothing. */
  lemma DeleteAbsent<T(!new)>(xs: seq<T>, idOf: T -> Id, id: Id)
    requires !HasId(xs, idOf, id)
    ensures DeleteById(xs, idOf, id) == xs
  {
    FilterAll(xs, x => idOf(x) != id);
  }

  /** Appending a record with a fresh id keeps ids unique. */
  lemma AppendFreshKeepsUnique<T>(xs: seq<T>, idOf: T -> Id, x: T)
    requires UniqueIds(xs, idOf) && !HasId(xs, idOf, idOf(x))
    ensures UniqueIds(Append(xs, x), idOf)
  {
  }

  /** Deleting keeps ids unique. */
  lemma {:induction false} DeleteKeepsUnique<T(!new)>(xs: seq<T>, idOf: T -> Id, id: Id)
    requires UniqueIds(xs, idOf)
    ensures UniqueIds(DeleteById(xs, idOf, id), idOf)
  {
    if xs != [] {
      var p := x => idOf(x) != id;
      var rest := xs[1..];
      assert xs == [xs[0]] + rest;
      DeleteKeepsUnique(rest, idOf, id);
      FilterCons(xs[0], rest, p);
      var r := DeleteById(rest, idOf, id);
      if p(xs[0]) {
        forall j | 0 <= j < |r| ensures idOf(xs[0]) != idOf(r[j]) {
          assert r[j] in rest;
          var k :| 0 <= k < |rest| && rest[k] == r[j];
          assert xs[k + 1] == r[j];
        }
      }
    }
  }

  /** Committing an edit to a record that has since been deleted does not bring it back. */
  lemma ReplaceAfterDelete<T(!new)>(xs: seq<T>, idOf: T -> Id, u: T)
    ensures ReplaceById(DeleteById(xs, idOf, idOf(u)), idOf, u) == DeleteById(xs, idOf, idOf(u))
  {
    var r := DeleteById(xs, idOf, idOf(u));
    assert forall i :: 0 <= i < |r| ==> r[i] in r;
  }
}

=== FILE: calendar.dfy ===
/** Proleptic Gregorian calendar arithmetic on day numbers (days since
    1970-01-01).  Years are counted from March inside the computation so
    that the leap day is the last day of its year; a 400-year era then
    splits into three 36524-day centuries and a final 36525-day one, and a
    century into four-year blocks of 1461 days (the last one of the first
    three centuries is a day short). */
module Calendar {

  /** A civil date; `month` runs 1..12 and `day` from 1 to the month's length. */
  datatype Date = Date(year: int, month: int, day: int)

  /** Gregorian leap years: every fourth year, except centuries not divisible by 400. */
  predicate IsLeapYear(y: int)
  {
    y % 4 == 0 && (y % 100 != 0 || y % 400 == 0)
  }

  /** The number of days in month `m` of year `y`. */
  function DaysInMonth(y: int, m: int): int
  {
    if m == 2 then (if IsLeapYear(y) then 29 else 28)
    else if m == 4 || m == 6 || m == 9 || m == 11 then 30
    else 31
  }

  /** A date that names an actual day of the calendar. */
  predicate ValidDate(d: Date)
  {
    1 <= d.month <= 12 && 1 <= d.day <= DaysInMonth(d.year, d.month)
  }

  /** Days from 0000-03-01 to 1970-01-01. */
  const EpochShift: int := 719468

  function Min(a: int, b: int): int { if a <= b then a else b }

  /** The day of the era on which March-based year `yoe` of the era starts. */
  function YearStart(yoe: int): int
    requires 0 <= yoe <= 399
  {
    yoe * 365 + yoe / 4 - yoe / 100
  }

  /** The March-based year of the era that contains day `doe` of the era. */
  function YearOfEra(doe: int): (yoe: int)
    requires 0 <= doe < 146097
    ensures 0 <= yoe <= 399
    ensures YearStart(yoe) <= doe <= YearStart(yoe) + 365
    ensures doe == YearStart(yoe) + 365 ==> IsLeapYear(yoe + 1)
  {
    var c := Min(doe / 36524, 3);
    var doc := doe - c * 36524;
    var q := doc / 1461;
    var doq := doc - q * 1461;
    var yq := Min(doq / 365, 3);
    YearOfEraParts(c, q, yq);
    100 * c + 4 * q + yq
  }

  /** How `YearStart` decomposes along centuries, blocks and years. */
  lemma YearOfEraParts(c: int, q: int, yq: int)
    requires 0 <= c <= 3 && 0 <= q <= 24 && 0 <= yq <= 3
    ensures YearStart(100 * c + 4 * q + yq) == c * 36524 + q * 1461 + yq * 365
  {
    var yoe := 100 * c + 4 * q + yq;
    assert yoe / 4 == 25 * c + q;
    assert yoe / 100 == c;
  }

  /** The March-based month (0 = March .. 11 = February) holding day `doy` of the year. */
  function MonthOfYear(doy: int): (mp: int)
    requires 0 <= doy <= 365
    ensures 0 <= mp <= 11
    ensures MonthStart(mp) <= doy <= MonthStart(mp) + 30
    ensures mp < 11 ==> doy < MonthStart(mp + 1)
  {
    (5 * doy + 2) / 153
  }

  /** The day of the March-based year on which month `mp` starts. */
  function MonthStart(mp: int): int
  {
    (153 * mp + 2) / 5
  }

  /** The civil date of day number `z`. */
  function CivilFromDays(z: int): (r: Date)
    ensures ValidDate(r)
  {
    var s := z + EpochShift;
    var doe := s % 146097;
    var yoe := YearOfEra(doe);
    var doy := doe - YearStart(yoe);
    var mp := MonthOfYear(doy);
    DateOfValid(s / 146097, yoe, mp, doy);
    DateOf(s / 146097, yoe, mp, doy - MonthStart(mp))
  }

  /** The date of day `doy` of a March-based year is a real date: months
      other than February end where the next one starts, and February has a
      29th only when the year is 366 days long, which is when its calendar
      year is a leap year. */
  lemma DateOfValid(era: int, yoe: int, mp: int, doy: int)
    requires 0 <= yoe <= 399 && 0 <= doy <= 365
    requires doy == 365 ==> IsLeapYear(yoe + 1)
    requires mp == MonthOfYear(doy)
    ensures ValidDate(DateOf(era, yoe, mp, doy - MonthStart(mp)))
  {
    var d := DateOf(era, yoe, mp, doy - MonthStart(mp));
    if mp == 11 {
      assert d.year == era * 400 + yoe + 1;
      LeapEveryEra(era, yoe + 1);
    }
  }

  /** Leap years repeat every 400 years. */
  lemma LeapEveryEra(era: int, y: int)
    ensures IsLeapYear(era * 400 + y) <==> IsLeapYear(y)
  {
    var k := era * 100;
    assert era * 400 + y == 4 * k + y;
    assert (4 * k + y) % 4 == y % 4;
    var j := era * 4;
    assert era * 400 + y == 100 * j + y;
    assert (100 * j + y) % 100 == y % 100;
    assert (400 * era + y) % 400 == y % 400;
  }

  /** The date in March-based month `mp` of year `yoe` of era `era`, `dom`
      days after the first of the month (January and February belong to
      the next calendar year). */
  function DateOf(era: int, yoe: int, mp: int, dom: int): Date
  {
    var m := if mp < 10 then mp + 3 else mp - 9;
    Date(era * 400 + yoe + (if m <= 2 then 1 else 0), m, dom + 1)
  }

  /** The day number of a civil date. */
  function DaysFromCivil(date: Date): int
  {
    var y := date.year - (if date.month <= 2 then 1 else 0);
    var era := y / 400;
    var yoe := y - era * 400;
    var mp := if date.month > 2 then date.month - 3 else date.month + 9;
    var doy := MonthStart(mp) + date.day - 1;
    era * 146097 + YearStart(yoe) + doy - EpochShift
  }

  /** Every day number is recovered from its civil date. */
  lemma CivilRoundTrip(z: int)
    ensures DaysFromCivil(CivilFromDays(z)) == z
  {
    var s := z + EpochShift;
    var era := s / 146097;
    var doe := s % 146097;
    var yoe := YearOfEra(doe);
    var doy := doe - YearStart(yoe);
    var mp := MonthOfYear(doy);
    var dom := doy - MonthStart(mp);
    calc {
      DaysFromCivil(CivilFromDays(z));
      == { CivilFromDaysParts(z); }
      DaysFromCivil(DateOf(era, yoe, mp, dom));
      == { DateFromParts(era, yoe, mp, dom); }
      era * 146097 + YearStart(yoe) + MonthStart(mp) + dom - EpochShift;
      == { EraSplit(s); Telescope(z, s, era, doe, YearStart(yoe), doy, MonthStart(mp), dom); }
      z;
    }
  }

  lemma CivilFromDaysParts(z: int)
    ensures var s := z + EpochShift;
            var yoe := YearOfEra(s % 146097);
            var doy := s % 146097 - YearStart(yoe);
            CivilFromDays(z) == DateOf(s / 146097, yoe, MonthOfYear(doy), doy - MonthStart(MonthOfYear(doy)))
  {
  }

  lemma EraSplit(s: int)
    ensures s == (s / 146097) * 146097 + s % 146097
  {
  }

  /** The offsets `CivilFromDays` subtracts are the ones `DaysFromCivil` adds back. */
  lemma Telescope(z: int, s: int, era: int, doe: int, ys: int, doy: int, ms: int, dom: int)
    requires s == z + EpochShift && s == era * 146097 + doe
    requires doy == doe - ys && dom == doy - ms
    ensures era * 146097 + ys + ms + dom - EpochShift == z
  {
  }

  /** The day number of the date `DateOf` assembles. */
  lemma DateFromParts(era: int, yoe: int, mp: int, dom: int)
    requires 0 <= yoe <= 399 && 0 <= mp <= 11
    ensures DaysFromCivil(DateOf(era, yoe, mp, dom))
            == era * 146097 + YearStart(yoe) + MonthStart(mp) + dom - EpochShift
  {
    var y := era * 400 + yoe;
    assert y / 400 == era;
    assert y - (y / 400) * 400 == yoe;
  }

  /** Two day numbers have the same civil date exactly when they are equal. */
  lemma CivilInjective(a: int, b: int)
    ensures CivilFromDays(a) == CivilFromDays(b) <==> a == b
  {
    CivilRoundTrip(a);
    CivilRoundTrip(b);
  }

  /** The day number of January 1 of year `y`, as ECMA-262 (the ECMAScript
      standard) defines it in its DayFromYear operation on Date objects. */
  function DayFromYear(y: int): int
  {
    365 * (y - 1970) + (y - 1969) / 4 - (y - 1901) / 100 + (y - 1601) / 400
  }

  /** The calendar agrees with ECMAScript's on the first day of every year. */
  lemma JanuaryFirstAgrees(y: int)
    ensures DaysFromCivil(Date(y, 1, 1)) == DayFromYear(y)
  {
    var e := (y - 1) / 400;
    var r := y - 1 - e * 400;
    assert 0 <= r <= 399;
    assert (y - 1969) / 4 == 100 * e - 492 + r / 4;
    assert (y - 1901) / 100 == 4 * e - 19 + r / 100;
    assert (y - 1601) / 400 == e - 4;
  }
}

=== FILE: editors.dfy ===
/** The record editors: the meeting editor's draft attendee list, the new
    records the "add" dialogs build, the save guards of those dialogs, and
    the assistant-link editor, which saves its draft trimmed. */
module Editors {
  import opened Options
  import opened Time
  import opened Records
  import opened Seqs
  import Js

  /** The attendee `addAttendee` appends: every text field empty. */
  function BlankAttendee(id: Id): Attendee
  {
    Attendee(id, "", Some(""), Some(""), Some(""), Some(""), Some(""))
  }

  /** `updateAttendee(a, idx)`: position `idx` of the draft's attendees becomes `a`. */
  function UpdateAttendee(draft: Meeting, a: Attendee, idx: int): (r: Meeting)
    ensures |r.attendees| == |draft.attendees|
    ensures forall i :: 0 <= i < |r.attendees| && i != idx ==> r.attendees[i] == draft.attendees[i]
    ensures 0 <= idx < |r.attendees| ==> r.attendees[idx] == a
    ensures r == draft.(attendees := r.attendees)
  {
    draft.(attendees := ReplaceAt(draft.attendees, idx, a))
  }

  /** `addAttendee()`: one blank attendee, with the fresh id `newId`, goes at the end. */
  function AddAttendee(draft: Meeting, newId: Id): (r: Meeting)
    ensures |r.attendees| == |draft.attendees| + 1
    ensures r.attendees[..|draft.attendees|] == draft.attendees
    ensures var a := r.attendees[|draft.attendees|];
            a.id == newId && a.name == "" && a.title == Some("") && a.company == Some("")
            && a.linkedin == Some("") && a.photoUrl == Some("") && a.notes == Some("")
    ensures r == draft.(attendees := r.attendees)
  {
    draft.(attendees := draft.attendees + [BlankAttendee(newId)])
  }

  /** `removeAttendee(idx)`: position `idx` leaves the draft's attendees, the
      rest keep their order; an index outside the list removes nothing. */
  function RemoveAttendee(draft: Meeting, idx: int): (r: Meeting)
    ensures 0 <= idx < |draft.attendees| ==>
              |r.attendees| == |draft.attendees| - 1
              && r.attendees[..idx] == draft.attendees[..idx]
              && r.attendees[idx..] == draft.attendees[idx + 1..]
    ensures !(0 <= idx < |draft.attendees|) ==> r.attendees == draft.attendees
    ensures r == draft.(attendees := r.attendees)
  {
    draft.(attendees := RemoveAt(draft.attendees, idx))
  }

  /** Removing the attendee just added gives back the draft. */
  lemma RemoveUndoesAdd(draft: Meeting, newId: Id)
    ensures RemoveAttendee(AddAttendee(draft, newId), |draft.attendees|) == draft
  {
    var added := AddAttendee(draft, newId).attendees;
    assert added[..|draft.attendees|] + added[|draft.attendees| + 1..] == draft.attendees;
  }

  /** Updating a position with the attendee already there changes nothing, and
      a second update of the same position overrides the first. */
  lemma UpdateLaws(draft: Meeting, a: Attendee, b: Attendee, idx: int)
    ensures 0 <= idx < |draft.attendees| ==> UpdateAttendee(draft, draft.attendees[idx], idx) == draft
    ensures UpdateAttendee(UpdateAttendee(draft, a, idx), b, idx) == UpdateAttendee(draft, b, idx)
  {
  }

  /** The meeting the "new meeting" dialog saves: no attendees, no talking
      points or checklist yet. */
  function NewMeeting(id: Id, title: string, location: string, booth: string,
                      start: Instant, end: Instant, description: string): (r: Meeting)
    ensures r.id == id && r.title == title && r.start == start && r.end == end
    ensures r.description == Some(description) && r.location == Some(location) && r.booth == Some(booth)
    ensures r.attendees == [] && r.talkingPoints == None && r.prepChecklist == None
  {
    Meeting(id, title, Some(description), Some(location), Some(booth), start, end, [], None, None)
  }

  /** The draft the "new travel" dialog starts from. */
  function BlankTravel(id: Id): (r: Travel)
    ensures r.id == id && r.kind == Flight && r.labelText == ""
    ensures r.confirmation == Some("") && r.details == Some("") && r.start == None && r.end == None
  {
    Travel(id, Flight, "", Some(""), None, None, Some(""))
  }

  /** The "new meeting" dialog can save only with a title; the test is
      JavaScript truthiness, so only the empty title is refused. */
  predicate CanSaveMeeting(m: Meeting)
    ensures CanSaveMeeting(m) <==> Js.Truthy(Js.Text(m.title))
  {
    m.title != ""
  }

  /** The "new travel" dialog can save only with a label (again, any non-empty one). */
  predicate CanSaveTravel(t: Travel)
    ensures CanSaveTravel(t) <==> Js.Truthy(Js.Text(t.labelText))
  {
    t.labelText != ""
  }

  /** The characters JavaScript's `String.prototype.trim` removes: white
      space and line terminators. */
  predicate IsWhitespace(c: char)
  {
    // tab, vertical tab, form feed, space, no-break space, byte order mark
    c == '\t' || c == '\U{000B}' || c == '\U{000C}' || c == ' ' || c == '\U{00A0}' || c == '\U{FEFF}'
    // the other Unicode space separators
    || c == '\U{1680}' || ('\U{2000}' <= c <= '\U{200A}') || c == '\U{202F}' || c == '\U{205F}' || c == '\U{3000}'
    // line terminators
    || c == '\n' || c == '\r' || c == '\U{2028}' || c == '\U{2029}'
  }

  ghost predicate AllWhitespace(s: string)
  {
    forall i :: 0 <= i < |s| ==> IsWhitespace(s[i])
  }

  /** `s` neither starts nor ends with white space. */
  ghost predicate Trimmed(s: string)
  {
    s == [] || (!IsWhitespace(s[0]) && !IsWhitespace(s[|s| - 1]))
  }

  /** `s` without its leading white space. */
  function TrimStart(s: string): (r: string)
    ensures |r| <= |s| && r == s[|s| - |r|..]
    ensures AllWhitespace(s[..|s| - |r|])
    ensures r == [] || !IsWhitespace(r[0])
  {
    if s != [] && IsWhitespace(s[0]) then TrimStart(s[1..]) else s
  }

  /** `s` without its trailing white space. */
  function TrimEnd(s: string): (r: string)
    ensures |r| <= |s| && r == s[..|r|]
    ensures AllWhitespace(s[|r|..])
    ensures r == [] || !IsWhitespace(r[|r| - 1])
  {
    if s != [] && IsWhitespace(s[|s| - 1]) then
      var init := s[..|s| - 1];
      var r := TrimEnd(init);
      assert s[|r|..] == init[|r|..] + [s[|s| - 1]];
      r
    else s
  }

  /** `s.trim()`: `s` without its leading and trailing white space. */
  function Trim(s: string): (r: string)
    ensures |r| <= |s|
    ensures Trimmed(r)
  {
    var t := TrimStart(s);
    var r := TrimEnd(t);
    assert r != [] ==> r[0] == t[0];
    r
  }

  /** What `trim()` removes is white space at either end, and nothing else:
      the trimmed string sits inside `s` between two runs of white space. */
  lemma TrimIsInfix(s: string)
    ensures exists i :: 0 <= i <= |s| - |Trim(s)| && Trim(s) == s[i..i + |Trim(s)|]
                        && AllWhitespace(s[..i]) && AllWhitespace(s[i + |Trim(s)|..])
  {
    var t := TrimStart(s);
    var i := |s| - |t|;
    TrimWitness(s, t, Trim(s), i);
  }

  lemma TrimWitness(s: string, t: string, r: string, i: int)
    requires 0 <= i <= |s| && t == s[i..] && AllWhitespace(s[..i])
    requires |r| <= |t| && r == t[..|r|] && AllWhitespace(t[|r|..])
    ensures 0 <= i <= |s| - |r| && r == s[i..i + |r|]
    ensures AllWhitespace(s[..i]) && AllWhitespace(s[i + |r|..])
  {
    assert s[i + |r|..] == t[|r|..];
  }

  /** Trimming is idempotent. */
  lemma TrimIdempotent(s: string)
    ensures Trim(Trim(s)) == Trim(s)
  {
    var r := Trim(s);
    if r != [] {
      assert !IsWhitespace(r[0]);
      assert TrimStart(r) == r;
      assert TrimEnd(r) == r;
    }
  }

  /** A string trims to nothing exactly when it is all white space. */
  lemma TrimEmptyIffBlank(s: string)
    ensures Trim(s) == [] <==> AllWhitespace(s)
  {
    var t := TrimStart(s);
    BlankTrimStart(s);
    BlankTrimEnd(t);
    assert t != [] ==> !AllWhitespace(t) by {
      if t != [] { assert !IsWhitespace(t[0]); }
    }
  }

  lemma BlankTrimStart(s: string)
    ensures TrimStart(s) == [] <==> AllWhitespace(s)
  {
    var t := TrimStart(s);
    var k := |s| - |t|;
    assert s == s[..k] + t;
    if t != [] {
      assert t[0] == s[k];
    }
  }

  lemma BlankTrimEnd(t: string)
    ensures TrimEnd(t) == [] <==> AllWhitespace(t)
  {
    var r := TrimEnd(t);
    if r != [] {
      assert r[|r| - 1] == t[|r| - 1];
    } else {
      assert t[|r|..] == t;
    }
  }

  /** The link editor's save: refused while the trimmed draft is empty;
      otherwise the stored link becomes the trimmed draft. */
  function SaveLink(current: string, draft: string): (r: string)
    ensures AllWhitespace(draft) ==> r == current
    ensures !AllWhitespace(draft) ==> r != [] && Trimmed(r) && r == Trim(draft)
  {
    TrimEmptyIffBlank(draft);
    var t := Trim(draft);
    if t == [] then current else t
  }
}

=== FILE: hourly.dfy ===
/** The hourly grid: thirteen one-hour slots from 07:00 local time on the
    active day, each listing the meetings running at the slot's instant
    (`HourlyGrid` in App.tsx). */
module Hourly {
  import opened Time
  import opened Records
  import opened Seqs
  import Schedule

  /** The first slot is at 07:00; the thirteenth and last at 19:00. */
  const FirstHour: nat := 7
  const SlotCount: nat := 13

  datatype Slot = Slot(at: Instant, meetings: seq<Meeting>)

  /** A meeting occupies the slot at `h` when it has started by `h` and has
      not yet ended: the interval is closed at the start and open at the end. */
  predicate Occupies(m: Meeting, h: Instant)
  {
    m.start <= h < m.end
  }

  /** The meetings of `ms` occupying `h`, in the order of `ms`. */
  function Occupying(ms: seq<Meeting>, h: Instant): (r: seq<Meeting>)
    ensures forall m :: m in r <==> m in ms && Occupies(m, h)
    ensures forall m :: multiset(r)[m] == if Occupies(m, h) then multiset(ms)[m] else 0
    ensures IsSubsequence(r, ms)
  {
    FilterCounts(ms, (m: Meeting) => Occupies(m, h));
    FilterIsSubsequence(ms, (m: Meeting) => Occupies(m, h));
    Filter(ms, (m: Meeting) => Occupies(m, h))
  }

  /** The grid for the day of `day`, built from that day's meetings `ms`. */
  function HourlyGrid(ms: seq<Meeting>, day: Instant): (r: seq<Slot>)
    ensures |r| == SlotCount
    ensures forall i :: 0 <= i < |r| ==>
              SameDay(r[i].at, day) && r[i].at - LocalMidnight(day) == (FirstHour + i) * MsPerHour
    ensures forall i, m :: 0 <= i < |r| ==>
              (m in r[i].meetings <==> m in ms && m.start <= r[i].at < m.end)
    ensures forall i, m :: 0 <= i < |r| ==>
              multiset(r[i].meetings)[m] == if m.start <= r[i].at < m.end then multiset(ms)[m] else 0
    ensures forall i :: 0 <= i < |r| ==> IsSubsequence(r[i].meetings, ms)
  {
    var first := AtLocalHour(day, FirstHour);
    seq(SlotCount, (i: int) requires 0 <= i < SlotCount =>
      var h := first + i * MsPerHour;
      assert LocalDay(h) == LocalDay(day);
      Slot(h, Occupying(ms, h)))
  }

  /** The slots of the grid on the active day keep that day's start order. */
  lemma SlotsKeepDayOrder(meetings: seq<Meeting>, day: Instant, i: int)
    requires 0 <= i < SlotCount
    ensures SortedBy(HourlyGrid(Schedule.DayMeetings(meetings, day), day)[i].meetings, StartOf)
  {
    var dm := Schedule.DayMeetings(meetings, day);
    SubsequenceOfSorted(HourlyGrid(dm, day)[i].meetings, dm, StartOf);
  }

  /** The slot boundaries: a meeting ending at a slot's instant is not in that
      slot, one starting at it (and ending later) is, and a meeting of zero
      length is in no slot at all. */
  lemma SlotBoundaries(ms: seq<Meeting>, day: Instant, m: Meeting, i: int)
    requires m in ms && 0 <= i < SlotCount
    ensures m.end == HourlyGrid(ms, day)[i].at ==> m !in HourlyGrid(ms, day)[i].meetings
    ensures m.start == HourlyGrid(ms, day)[i].at < m.end ==> m in HourlyGrid(ms, day)[i].meetings
    ensures m.start == m.end ==> m !in HourlyGrid(ms, day)[i].meetings
  {
  }

  /** Two overlapping meetings off the hour: on one day, A runs 09:00-10:00 and B 09:30-10:30,
      listed B first.  The day's agenda is A then B; the 09:00 slot holds A
      alone and the 10:00 slot B alone. */
  lemma TwoMeetingExample(day: Instant, a: Meeting, b: Meeting)
    requires day == LocalMidnight(day)
    requires a.start == day + 9 * MsPerHour && a.end == day + 10 * MsPerHour
    requires b.start == a.start + MsPerHour / 2 && b.end == b.start + MsPerHour
    ensures Schedule.DayMeetings([b, a], day) == [a, b]
    ensures HourlyGrid([a, b], day)[2].meetings == [a]
    ensures HourlyGrid([a, b], day)[3].meetings == [b]
  {
    ExampleAgenda(day, a, b);
    var g := HourlyGrid([a, b], day);
    assert g[2].at == day + 9 * MsPerHour;
    assert g[3].at == day + 10 * MsPerHour;
    ExampleSlot(a, b, g[2].at);
    ExampleSlot(a, b, g[3].at);
  }

  lemma ExampleAgenda(day: Instant, a: Meeting, b: Meeting)
    requires day == LocalMidnight(day)
    requires a.start == day + 9 * MsPerHour && b.start == a.start + MsPerHour / 2
    ensures Schedule.DayMeetings([b, a], day) == [a, b]
  {
    assert SameDay(a.start, day) && SameDay(b.start, day);
    ExampleOnDay(day, a, b);
    ExampleSort(a, b);
  }

  lemma ExampleOnDay(day: Instant, a: Meeting, b: Meeting)
    requires SameDay(a.start, day) && SameDay(b.start, day)
    ensures Schedule.OnDay([b, a], day) == [b, a]
  {
    FilterCons(b, [a], (m: Meeting) => SameDay(m.start, day));
    FilterCons(a, [], (m: Meeting) => SameDay(m.start, day));
  }

  lemma ExampleSort(a: Meeting, b: Meeting)
    requires a.start < b.start
    ensures SortBy([b, a], StartOf) == [a, b]
  {
    assert [b, a][1..] == [a] && [a][1..] == [];
    assert SortBy([a], StartOf) == [a];
    assert Insert(b, [], StartOf) == [b];
    assert Insert(b, [a], StartOf) == [a, b];
  }

  lemma ExampleSlot(a: Meeting, b: Meeting, h: Instant)
    ensures Occupying([a, b], h)
            == (if Occupies(a, h) then [a] else []) + (if Occupies(b, h) then [b] else [])
  {
    ExampleFilter(a, b, (m: Meeting) => Occupies(m, h));
  }

  lemma ExampleFilter(a: Meeting, b: Meeting, p: Meeting -> bool)
    ensures Filter([a, b], p) == (if p(a) then [a] else []) + (if p(b) then [b] else [])
  {
    FilterCons(a, [b], p);
    FilterCons(b, [], p);
    assert [a, b][1..] == [b];
  }
}

=== FILE: js.dfy ===
/** JavaScript values as far as the application inspects them: the
    truthiness tests (`if (x)`, `!x`) and the `||` fallback. */
module Js {
  /** A JSON value; arrays and objects are not looked into. */
  datatype Json = Null | Bool(b: bool) | Number(n: int) | Text(s: string) | Compound

  /** JavaScript truthiness of a JSON value (ToBoolean). */
  predicate Truthy(v: Json)
  {
    match v
    case Null => false
    case Bool(b) => b
    case Number(n) => n != 0
    case Text(s) => s != ""
    case Compound => true
  }

  /** `v || fallback`: `v` itself when it is truthy and `fallback` otherwise,
      so the result is truthy exactly when either operand is. */
  function Or(v: Json, fallback: Json): (r: Json)
    ensures Truthy(v) ==> r == v
    ensures !Truthy(v) ==> r == fallback
    ensures Truthy(r) <==> Truthy(v) || Truthy(fallback)
  {
    if Truthy(v) then v else fallback
  }
}

=== FILE: options.dfy ===
/** Optional values. */
module Options {
  datatype Option<T> = None | Some(value: T)
}

=== FILE: planner.dfy ===
/** The main component's event handlers, each a step from one application
    state to the next.  Every handler changes one slice and leaves the
    others as they were. */
module Planner {
  import opened Time
  import opened Records
  import opened Seqs
  import opened ById
  import opened State
  import Schedule
  import Hourly
  import Editors

  /** The agenda of the active day. */
  function Agenda(s: AppState): (r: seq<Meeting>)
    ensures forall m :: m in r <==> m in s.meetings && SameDay(m.start, s.activeDate)
    ensures forall m :: multiset(r)[m] == if SameDay(m.start, s.activeDate) then multiset(s.meetings)[m] else 0
    ensures SortedBy(r, StartOf)
    ensures forall k :: Schedule.StartingAt(r, k) == if SameDay(k, s.activeDate) then Schedule.StartingAt(s.meetings, k) else []
  {
    Schedule.DayMeetings(s.meetings, s.activeDate)
  }

  /** The hourly grid of the active day: a slot lists the meetings that start
      on the active day and are running at the slot's instant, in start order.
      A meeting carried over from the day before is in no slot. */
  function Grid(s: AppState): (r: seq<Hourly.Slot>)
    ensures |r| == Hourly.SlotCount
    ensures forall i :: 0 <= i < |r| ==>
              SameDay(r[i].at, s.activeDate) && r[i].at - LocalMidnight(s.activeDate) == (Hourly.FirstHour + i) * MsPerHour
    ensures forall i, m :: 0 <= i < |r| ==>
              (m in r[i].meetings <==> m in s.meetings && SameDay(m.start, s.activeDate) && m.start <= r[i].at < m.end)
    ensures forall i, m :: 0 <= i < |r| ==>
              multiset(r[i].meetings)[m] ==
                if SameDay(m.start, s.activeDate) && m.start <= r[i].at < m.end then multiset(s.meetings)[m] else 0
    ensures forall i :: 0 <= i < |r| ==> IsSubsequence(r[i].meetings, Agenda(s))
    ensures forall i :: 0 <= i < |r| ==> SortedBy(r[i].meetings, StartOf)
  {
    GridSorted(s.meetings, s.activeDate);
    Hourly.HourlyGrid(Agenda(s), s.activeDate)
  }

  lemma GridSorted(meetings: seq<Meeting>, day: Instant)
    ensures forall i :: 0 <= i < Hourly.SlotCount ==>
              SortedBy(Hourly.HourlyGrid(Schedule.DayMeetings(meetings, day), day)[i].meetings, StartOf)
  {
    forall i | 0 <= i < Hourly.SlotCount
      ensures SortedBy(Hourly.HourlyGrid(Schedule.DayMeetings(meetings, day), day)[i].meetings, StartOf)
    {
      Hourly.SlotsKeepDayOrder(meetings, day, i);
    }
  }

  /** The "new meeting" dialog's save: the meeting goes at the end of the
      list, unless its title is empty, when the button is disabled. */
  function AddMeeting(s: AppState, m: Meeting): (r: AppState)
    ensures r.travel == s.travel && r.gptUrl == s.gptUrl && r.activeDate == s.activeDate
    ensures Editors.CanSaveMeeting(m) <==> |r.meetings| == |s.meetings| + 1
    ensures Editors.CanSaveMeeting(m) ==> r.meetings[..|s.meetings|] == s.meetings && r.meetings[|s.meetings|] == m
    ensures !Editors.CanSaveMeeting(m) ==> r == s
  {
    if Editors.CanSaveMeeting(m) then s.(meetings := Append(s.meetings, m)) else s
  }

  /** Saving an edited meeting (from the agenda or the details pane): it
      takes the place of every meeting with its id. */
  function EditMeeting(s: AppState, updated: Meeting): (r: AppState)
    ensures r == s.(meetings := r.meetings)
    ensures |r.meetings| == |s.meetings|
    ensures forall i :: 0 <= i < |s.meetings| ==>
              r.meetings[i] == if s.meetings[i].id == updated.id then updated else s.meetings[i]
  {
    s.(meetings := ReplaceById(s.meetings, MeetingId, updated))
  }

  /** Deleting a meeting: every meeting with that id leaves the list. */
  function DeleteMeeting(s: AppState, id: Id): (r: AppState)
    ensures r == s.(meetings := r.meetings)
    ensures forall m :: m in r.meetings <==> m in s.meetings && m.id != id
    ensures forall m :: multiset(r.meetings)[m] == if m.id != id then multiset(s.meetings)[m] else 0
    ensures IsSubsequence(r.meetings, s.meetings)
  {
    s.(meetings := DeleteById(s.meetings, MeetingId, id))
  }

  /** The "new travel" dialog's save: the booking goes at the end, unless its
      label is empty. */
  function AddTravel(s: AppState, t: Travel): (r: AppState)
    ensures r.meetings == s.meetings && r.gptUrl == s.gptUrl && r.activeDate == s.activeDate
    ensures Editors.CanSaveTravel(t) <==> |r.travel| == |s.travel| + 1
    ensures Editors.CanSaveTravel(t) ==> r.travel[..|s.travel|] == s.travel && r.travel[|s.travel|] == t
    ensures !Editors.CanSaveTravel(t) ==> r == s
  {
    if Editors.CanSaveTravel(t) then s.(travel := Append(s.travel, t)) else s
  }

  /** Editing a booking in place: it takes the place of every booking with its id. */
  function UpdateTravel(s: AppState, updated: Travel): (r: AppState)
    ensures r == s.(travel := r.travel)
    ensures |r.travel| == |s.travel|
    ensures forall i :: 0 <= i < |s.travel| ==>
              r.travel[i] == if s.travel[i].id == updated.id then updated else s.travel[i]
  {
    s.(travel := ReplaceById(s.travel, TravelId, updated))
  }

  /** Deleting a booking: every booking with that id leaves the list. */
  function DeleteTravel(s: AppState, id: Id): (r: AppState)
    ensures r == s.(travel := r.travel)
    ensures forall t :: t in r.travel <==> t in s.travel && t.id != id
    ensures forall t :: multiset(r.travel)[t] == if t.id != id then multiset(s.travel)[t] else 0
    ensures IsSubsequence(r.travel, s.travel)
  {
    s.(travel := DeleteById(s.travel, TravelId, id))
  }

  /** The link editor's save. */
  function SetLink(s: AppState, draft: string): (r: AppState)
    ensures r == s.(gptUrl := r.gptUrl)
    ensures Editors.AllWhitespace(draft) ==> r == s
    ensures !Editors.AllWhitespace(draft) ==> r.gptUrl == Editors.Trim(draft) && r.gptUrl != "" && Editors.Trimmed(r.gptUrl)
  {
    s.(gptUrl := Editors.SaveLink(s.gptUrl, draft))
  }

  /** The arrows beside the date: step the active date through the days that
      have meetings, to the neighbour of the active day in `dir`. */
  function ShiftActiveDay(s: AppState, dir: Schedule.Direction): (r: AppState)
    ensures r == s.(activeDate := r.activeDate)
    ensures r.activeDate == s.activeDate
            || exists m :: m in s.meetings && r.activeDate == LocalMidnight(m.start)
    ensures var days := Schedule.Days(s.meetings);
            forall i :: 0 <= i < |days| && SameDay(days[i], s.activeDate) ==>
              r.activeDate == if 0 <= i + dir.Offset() < |days| then days[i + dir.Offset()] else s.activeDate
    ensures var days := Schedule.Days(s.meetings);
            (forall i :: 0 <= i < |days| ==> !SameDay(days[i], s.activeDate)) ==>
              r.activeDate == if dir == Schedule.Next && days != [] then days[0] else s.activeDate
  {
    StepFromEveryDay(s.meetings, s.activeDate, dir);
    s.(activeDate := Schedule.ShiftDay(Schedule.Days(s.meetings), s.activeDate, dir))
  }

  lemma StepFromEveryDay(ms: seq<Meeting>, active: Instant, dir: Schedule.Direction)
    ensures forall i :: 0 <= i < |Schedule.Days(ms)| && SameDay(Schedule.Days(ms)[i], active) ==>
              Schedule.ShiftDay(Schedule.Days(ms), active, dir)
              == if 0 <= i + dir.Offset() < |Schedule.Days(ms)| then Schedule.Days(ms)[i + dir.Offset()] else active
  {
    forall i | 0 <= i < |Schedule.Days(ms)| && SameDay(Schedule.Days(ms)[i], active)
      ensures Schedule.ShiftDay(Schedule.Days(ms), active, dir)
              == if 0 <= i + dir.Offset() < |Schedule.Days(ms)| then Schedule.Days(ms)[i + dir.Offset()] else active
    {
      Schedule.ShiftOnMeetingDays(ms, active, dir, i);
    }
  }

  /** A meeting added with a title shows in the agenda of the day it starts on. */
  lemma AddedMeetingOnItsDay(s: AppState, m: Meeting)
    requires Editors.CanSaveMeeting(m) && SameDay(m.start, s.activeDate)
    ensures m in Agenda(AddMeeting(s, m))
  {
  }

  /** Adding a meeting under a fresh id and then deleting that id restores the state. */
  lemma DeleteUndoesAdd(s: AppState, m: Meeting)
    requires !HasId(s.meetings, MeetingId, m.id)
    ensures DeleteMeeting(AddMeeting(s, m), m.id) == s
  {
    if Editors.CanSaveMeeting(m) {
      DeleteAfterAppend(s.meetings, MeetingId, m);
    } else {
      DeleteAbsent(s.meetings, MeetingId, m.id);
    }
  }

  /** After a delete, the agenda and every slot of the grid hold exactly the
      meetings they held before, less those with the deleted id. */
  lemma DeleteLeavesViews(s: AppState, id: Id, m: Meeting, i: int)
    requires 0 <= i < Hourly.SlotCount
    ensures m in Agenda(DeleteMeeting(s, id)) <==> m in Agenda(s) && m.id != id
    ensures m in Grid(DeleteMeeting(s, id))[i].meetings <==> m in Grid(s)[i].meetings && m.id != id
  {
    var d := DeleteMeeting(s, id);
    assert d.activeDate == s.activeDate;
    var at := Grid(s)[i].at;
    assert Grid(d)[i].at == at;
    assert m in d.meetings <==> m in s.meetings && m.id != id;
  }

  /** Adding or editing a booking never disturbs the schedule views. */
  lemma TravelLeavesSchedule(s: AppState, t: Travel, id: Id)
    ensures Agenda(AddTravel(s, t)) == Agenda(s) && Agenda(UpdateTravel(s, t)) == Agenda(s)
    ensures Agenda(DeleteTravel(s, id)) == Agenda(s)
  {
  }
}

=== FILE: records.dfy ===
/** The records the planner keeps: meetings with their attendees, and travel
    bookings.  Optional text fields are `Option`s; times are instants. */
module Records {
  import opened Options
  import opened Time

  type Id = string

  datatype Attendee = Attendee(
    id: Id,
    name: string,
    title: Option<string>,
    company: Option<string>,
    linkedin: Option<string>,
    photoUrl: Option<string>,
    notes: Option<string>)

  datatype Meeting = Meeting(
    id: Id,
    title: string,
    description: Option<string>,
    location: Option<string>,
    booth: Option<string>,
    start: Instant,
    end: Instant,
    attendees: seq<Attendee>,
    talkingPoints: Option<string>,
    prepChecklist: Option<string>)

  datatype TravelKind = Flight | Hotel | Ground

  datatype Travel = Travel(
    id: Id,
    kind: TravelKind,
    labelText: string,  // the booking's `label` ("ATL to BOS")
    confirmation: Option<string>,
    start: Option<Instant>,
    end: Option<Instant>,
    details: Option<string>)

  function MeetingId(m: Meeting): Id { m.id }

  function TravelId(t: Travel): Id { t.id }

  function StartOf(m: Meeting): int { m.start }
}

=== FILE: schedule.dfy ===
/** The schedule view: the meetings of the active day in start order, the
    days that have meetings, and stepping the active day to a neighbour
    (`dayMeetings`, `days` and `shiftDay` in App.tsx). */
module Schedule {
  import opened Time
  import opened Records
  import opened Seqs

  /** The meetings that start on the local day of `day`, in list order. */
  function OnDay(ms: seq<Meeting>, day: Instant): (r: seq<Meeting>)
    ensures forall m :: m in r <==> m in ms && SameDay(m.start, day)
    ensures forall m :: multiset(r)[m] == if SameDay(m.start, day) then multiset(ms)[m] else 0
    ensures IsSubsequence(r, ms)
  {
    FilterCounts(ms, (m: Meeting) => SameDay(m.start, day));
    FilterIsSubsequence(ms, (m: Meeting) => SameDay(m.start, day));
    Filter(ms, (m: Meeting) => SameDay(m.start, day))
  }

  /** The meetings that start exactly at `k`, in list order. */
  function StartingAt(ms: seq<Meeting>, k: Instant): seq<Meeting>
  {
    WithKey(ms, StartOf, k)
  }

  /** The active day's meetings: those starting on that local day, sorted by
      start, meetings with equal starts in list order. */
  function DayMeetings(ms: seq<Meeting>, day: Instant): (r: seq<Meeting>)
    ensures forall m :: m in r <==> m in ms && SameDay(m.start, day)
    ensures multiset(r) == multiset(OnDay(ms, day))
    ensures SortedBy(r, StartOf)
    ensures forall k :: StartingAt(r, k) == if SameDay(k, day) then StartingAt(ms, k) else []
  {
    var onDay := OnDay(ms, day);
    SortStableAll(onDay, StartOf);
    StartsOnDay(ms, day);
    SortBy(onDay, StartOf)
  }

  /** Picking the meetings of one start time out of the day's meetings is
      picking them out of the whole list, or nothing if that time is on
      another day. */
  lemma StartsOnDay(ms: seq<Meeting>, day: Instant)
    ensures forall k :: StartingAt(OnDay(ms, day), k) == if SameDay(k, day) then StartingAt(ms, k) else []
  {
    forall k ensures StartingAt(OnDay(ms, day), k) == if SameDay(k, day) then StartingAt(ms, k) else [] {
      if SameDay(k, day) {
        WithKeyOfFilter(ms, (m: Meeting) => SameDay(m.start, day), StartOf, k);
      } else {
        WithKeyOfFilterEmpty(ms, (m: Meeting) => SameDay(m.start, day), StartOf, k);
      }
    }
  }

  /** The local midnight of the day each meeting starts on, in list order. */
  function StartDays(ms: seq<Meeting>): (r: seq<Instant>)
    ensures |r| == |ms|
    ensures forall i :: 0 <= i < |ms| ==> r[i] == LocalMidnight(ms[i].start)
  {
    if ms == [] then [] else [LocalMidnight(ms[0].start)] + StartDays(ms[1..])
  }

  /** The days that have meetings: one local midnight per distinct day on
      which some meeting starts, in increasing order. */
  function Days(ms: seq<Meeting>): (r: seq<Instant>)
    ensures StrictlyIncreasing(r)
    ensures forall d :: d in r <==> exists m :: m in ms && d == LocalMidnight(m.start)
    ensures forall i :: 0 <= i < |r| ==> LocalMidnight(r[i]) == r[i]
    ensures forall i, j :: 0 <= i < j < |r| ==> !SameDay(r[i], r[j])
  {
    var starts := StartDays(ms);
    var unique := Dedup(starts);
    SortDistinctIsStrict(unique);
    var r := SortBy(unique, Identity);
    assert forall d :: d in r <==> d in starts by {
      forall d ensures d in r <==> d in starts {
        assert d in r <==> d in multiset(r);
      }
    }
    assert forall d :: d in starts <==> exists m :: m in ms && d == LocalMidnight(m.start) by {
      forall d ensures d in starts <==> exists m :: m in ms && d == LocalMidnight(m.start) {
        if d in starts {
          var i :| 0 <= i < |starts| && starts[i] == d;
          assert ms[i] in ms;
        }
        if exists m :: m in ms && d == LocalMidnight(m.start) {
          var m :| m in ms && d == LocalMidnight(m.start);
          var i :| 0 <= i < |ms| && ms[i] == m;
          assert starts[i] == d;
        }
      }
    }
    DistinctMidnights(r);
    r
  }

  /** Distinct local midnights lie on distinct days. */
  lemma DistinctMidnights(r: seq<Instant>)
    requires StrictlyIncreasing(r)
    requires forall d :: d in r ==> exists m: Meeting :: d == LocalMidnight(m.start)
    ensures forall i :: 0 <= i < |r| ==> LocalMidnight(r[i]) == r[i]
    ensures forall i, j :: 0 <= i < j < |r| ==> !SameDay(r[i], r[j])
  {
    forall i | 0 <= i < |r| ensures LocalMidnight(r[i]) == r[i] {
      assert r[i] in r;
    }
    forall i, j | 0 <= i < j < |r| ensures !SameDay(r[i], r[j]) {
      SameMidnightIffSameDay(r[i], r[j]);
    }
  }

  /** Which way to step the active day. */
  datatype Direction = Previous | Next
  {
    function Offset(): int { if Previous? then -1 else 1 }
  }

  /** The position of the first entry of `days` on the same local day as `t`,
      or -1 when there is none (`findIndex`). */
  function FindDay(days: seq<Instant>, t: Instant): (i: int)
    ensures -1 <= i < |days|
    ensures i == -1 <==> forall j :: 0 <= j < |days| ==> !SameDay(days[j], t)
    ensures 0 <= i ==> SameDay(days[i], t) && forall j :: 0 <= j < i ==> !SameDay(days[j], t)
  {
    if days == [] then -1
    else if SameDay(days[0], t) then 0
    else
      var k := FindDay(days[1..], t);
      if k == -1 then -1 else k + 1
  }

  /** The new active instant after stepping from `active` in `dir`: the
      neighbouring entry of `days`, or `active` itself when there is no
      neighbour.  An active instant on none of the days behaves as if it sat
      just before the first one. */
  function ShiftDay(days: seq<Instant>, active: Instant, dir: Direction): (r: Instant)
    ensures r == active || r in days
    ensures forall i :: 0 <= i < |days| && SameDay(days[i], active)
                        && (forall j :: 0 <= j < i ==> !SameDay(days[j], active)) ==>
              r == if 0 <= i + dir.Offset() < |days| then days[i + dir.Offset()] else active
    ensures (forall i :: 0 <= i < |days| ==> !SameDay(days[i], active)) ==>
              r == if dir == Next && days != [] then days[0] else active
  {
    var next := FindDay(days, active) + dir.Offset();
    if 0 <= next < |days| then days[next] else active
  }

  /** On the list of meeting days, stepping from a listed day moves to the
      adjacent listed day, or stays put at either end. */
  lemma ShiftOnMeetingDays(ms: seq<Meeting>, active: Instant, dir: Direction, i: int)
    requires 0 <= i < |Days(ms)| && SameDay(Days(ms)[i], active)
    ensures ShiftDay(Days(ms), active, dir)
            == if 0 <= i + dir.Offset() < |Days(ms)| then Days(ms)[i + dir.Offset()] else active
  {
    var days := Days(ms);
    forall j | 0 <= j < i ensures !SameDay(days[j], active) {
      assert !SameDay(days[j], days[i]);
    }
  }

  /** Stepping forward and then back returns to the day one started on. */
  lemma NextThenPrevious(ms: seq<Meeting>, active: Instant, i: int)
    requires 0 <= i && i + 1 < |Days(ms)| && SameDay(Days(ms)[i], active)
    ensures ShiftDay(Days(ms), ShiftDay(Days(ms), active, Next), Previous) == Days(ms)[i]
    ensures SameDay(ShiftDay(Days(ms), ShiftDay(Days(ms), active, Next), Previous), active)
  {
    var days := Days(ms);
    ShiftOnMeetingDays(ms, active, Next, i);
    ShiftOnMeetingDays(ms, days[i + 1], Previous, i + 1);
  }

  /** Stepping back and then forward returns to the day one started on. */
  lemma PreviousThenNext(ms: seq<Meeting>, active: Instant, i: int)
    requires 0 < i < |Days(ms)| && SameDay(Days(ms)[i], active)
    ensures ShiftDay(Days(ms), ShiftDay(Days(ms), active, Previous), Next) == Days(ms)[i]
    ensures SameDay(ShiftDay(Days(ms), ShiftDay(Days(ms), active, Previous), Next), active)
  {
    var days := Days(ms);
    ShiftOnMeetingDays(ms, active, Previous, i);
    ShiftOnMeetingDays(ms, days[i - 1], Next, i - 1);
  }
}

=== FILE: seqs.dfy ===
/** Generic sequence operations behind the schedule and the editors:
    filtering, a stable insertion sort, first-seen de-duplication and
    updates by position. */
module Seqs {

  /** `a` is what remains of `b` after deleting some of its elements. */
  ghost predicate IsSubsequence<T>(a: seq<T>, b: seq<T>)
    decreases |b|
  {
    if a == [] then true
    else if b == [] then false
    else (a[0] == b[0] && IsSubsequence(a[1..], b[1..])) || IsSubsequence(a, b[1..])
  }

  /** The elements of `xs` that satisfy `p`, in their original order
      (JavaScript's `Array.prototype.filter`). */
  function Filter<T(!new)>(xs: seq<T>, p: T -> bool): (r: seq<T>)
    ensures forall x :: x in r <==> x in xs && p(x)
  {
    if xs == [] then []
    else if p(xs[0]) then [xs[0]] + Filter(xs[1..], p)
    else Filter(xs[1..], p)
  }

  /** A filter keeps every occurrence of an element that passes and none of one that fails. */
  lemma {:induction false} FilterCounts<T(!new)>(xs: seq<T>, p: T -> bool)
    ensures forall x :: multiset(Filter(xs, p))[x] == if p(x) then multiset(xs)[x] else 0
  {
    if xs != [] {
      assert xs == [xs[0]] + xs[1..];
      FilterCounts(xs[1..], p);
    }
  }

  /** A filter keeps the order of what it keeps. */
  lemma {:induction false} FilterIsSubsequence<T(!new)>(xs: seq<T>, p: T -> bool)
    ensures IsSubsequence(Filter(xs, p), xs)
  {
    if xs != [] {
      var rest := Filter(xs[1..], p);
      FilterIsSubsequence(xs[1..], p);
      if p(xs[0]) {
        assert ([xs[0]] + rest)[1..] == rest;
      }
    }
  }

  /** Filtering distributes over a leading element. */
  lemma FilterCons<T(!new)>(x: T, xs: seq<T>, p: T -> bool)
    ensures Filter([x] + xs, p) == (if p(x) then [x] else []) + Filter(xs, p)
  {
    assert ([x] + xs)[0] == x;
    assert ([x] + xs)[1..] == xs;
  }

  /** Filtering distributes over concatenation. */
  lemma {:induction false} FilterAppend<T(!new)>(a: seq<T>, b: seq<T>, p: T -> bool)
    ensures Filter(a + b, p) == Filter(a, p) + Filter(b, p)
  {
    if a == [] {
      assert a + b == b;
    } else {
      var head := if p(a[0]) then [a[0]] else [];
      assert a + b == [a[0]] + (a[1..] + b);
      assert a == [a[0]] + a[1..];
      FilterAppend(a[1..], b, p);
      FilterCons(a[0], a[1..] + b, p);
      FilterCons(a[0], a[1..], p);
      calc {
        Filter(a + b, p);
        head + Filter(a[1..] + b, p);
        head + (Filter(a[1..], p) + Filter(b, p));
        (head + Filter(a[1..], p)) + Filter(b, p);
        Filter(a, p) + Filter(b, p);
      }
    }
  }

  /** Filtering with a condition every element meets changes nothing. */
  lemma {:induction false} FilterAll<T(!new)>(xs: seq<T>, p: T -> bool)
    requires forall i :: 0 <= i < |xs| ==> p(xs[i])
    ensures Filter(xs, p) == xs
  {
    if xs != [] {
      assert xs == [xs[0]] + xs[1..];
      FilterAll(xs[1..], p);
      FilterCons(xs[0], xs[1..], p);
    }
  }

  /** `xs` is in non-decreasing order of `key`. */
  ghost predicate SortedBy<T>(xs: seq<T>, key: T -> int)
  {
    forall i, j :: 0 <= i < j < |xs| ==> key(xs[i]) <= key(xs[j])
  }

  /** `xs` is in strictly increasing order. */
  ghost predicate StrictlyIncreasing(xs: seq<int>)
  {
    forall i, j :: 0 <= i < j < |xs| ==> xs[i] < xs[j]
  }

  /** No value occurs twice in `xs`. */
  ghost predicate NoDuplicates<T>(xs: seq<T>)
  {
    forall i, j :: 0 <= i < j < |xs| ==> xs[i] != xs[j]
  }

  /** Inserts `x` into the sorted `xs` in front of every element whose key is
      not smaller, so `x` stays ahead of the elements with an equal key. */
  function Insert<T>(x: T, xs: seq<T>, key: T -> int): (r: seq<T>)
    requires SortedBy(xs, key)
    ensures SortedBy(r, key)
    ensures multiset(r) == multiset(xs) + multiset{x}
    ensures |r| == |xs| + 1
    ensures r[0] == x || (xs != [] && r[0] == xs[0])
  {
    if xs == [] || key(x) <= key(xs[0]) then [x] + xs
    else
      assert xs == [xs[0]] + xs[1..];
      [xs[0]] + Insert(x, xs[1..], key)
  }

  /** Stable sort by `key` (insertion sort; JavaScript's `Array.prototype.sort`
      is stable, and a comparator `key(a) - key(b)` orders by key). */
  function SortBy<T>(xs: seq<T>, key: T -> int): (r: seq<T>)
    ensures SortedBy(r, key)
    ensures multiset(r) == multiset(xs)
    ensures |r| == |xs|
  {
    if xs == [] then []
    else
      assert xs == [xs[0]] + xs[1..];
      Insert(xs[0], SortBy(xs[1..], key), key)
  }

  /** The elements of `xs` whose key is `k`, in their original order. */
  function WithKey<T(!new)>(xs: seq<T>, key: T -> int, k: int): seq<T>
  {
    Filter(xs, x => key(x) == k)
  }

  lemma WithKeyCons<T(!new)>(x: T, xs: seq<T>, key: T -> int, k: int)
    ensures WithKey([x] + xs, key, k) == (if key(x) == k then [x] else []) + WithKey(xs, key, k)
  {
    FilterCons(x, xs, y => key(y) == k);
  }

  /** Insertion keeps `x` ahead of the elements that share its key. */
  lemma {:induction false} InsertStable<T(!new)>(x: T, xs: seq<T>, key: T -> int, k: int)
    requires SortedBy(xs, key)
    ensures WithKey(Insert(x, xs, key), key, k) == WithKey([x] + xs, key, k)
  {
    if xs == [] || key(x) <= key(xs[0]) {
    } else {
      var rest := xs[1..];
      assert xs == [xs[0]] + rest;
      InsertStable(x, rest, key, k);
      WithKeyCons(xs[0], Insert(x, rest, key), key, k);
      WithKeyCons(x, rest, key, k);
      WithKeyCons(x, xs, key, k);
      WithKeyCons(xs[0], rest, key, k);
    }
  }

  /** The sort is stable: for every key, the elements with that key come out
      in the order they went in. */
  lemma {:induction false} SortStable<T(!new)>(xs: seq<T>, key: T -> int, k: int)
    ensures WithKey(SortBy(xs, key), key, k) == WithKey(xs, key, k)
  {
    if xs != [] {
      var rest := xs[1..];
      assert xs == [xs[0]] + rest;
      SortStable(rest, key, k);
      InsertStable(xs[0], SortBy(rest, key), key, k);
      WithKeyCons(xs[0], SortBy(rest, key), key, k);
      WithKeyCons(xs[0], rest, key, k);
    }
  }

  /** Sorting leaves, for every key, the elements with that key in input order. */
  lemma SortStableAll<T(!new)>(xs: seq<T>, key: T -> int)
    ensures forall k :: WithKey(SortBy(xs, key), key, k) == WithKey(xs, key, k)
  {
    forall k ensures WithKey(SortBy(xs, key), key, k) == WithKey(xs, key, k) {
      SortStable(xs, key, k);
    }
  }

  /** Filtering twice, the second time by a stronger condition, is filtering once by it. */
  lemma {:induction false} FilterFilter<T(!new)>(xs: seq<T>, p: T -> bool, q: T -> bool)
    requires forall x :: q(x) ==> p(x)
    ensures Filter(Filter(xs, p), q) == Filter(xs, q)
  {
    if xs != [] {
      assert xs == [xs[0]] + xs[1..];
      FilterFilter(xs[1..], p, q);
      FilterCons(xs[0], xs[1..], p);
      FilterCons(xs[0], xs[1..], q);
      FilterCons(xs[0], Filter(xs[1..], p), q);
    }
  }

  /** Picking one key out of a filtered sequence, when every element with
      that key passes the filter, is picking it out of the whole sequence. */
  lemma WithKeyOfFilter<T(!new)>(xs: seq<T>, p: T -> bool, key: T -> int, k: int)
    requires forall x :: key(x) == k ==> p(x)
    ensures WithKey(Filter(xs, p), key, k) == WithKey(xs, key, k)
  {
    FilterFilter(xs, p, x => key(x) == k);
  }

  /** Picking one key out of a filtered sequence, when no element with that
      key passes the filter, gives nothing. */
  lemma WithKeyOfFilterEmpty<T(!new)>(xs: seq<T>, p: T -> bool, key: T -> int, k: int)
    requires forall x :: key(x) == k ==> !p(x)
    ensures WithKey(Filter(xs, p), key, k) == []
  {
    var r := WithKey(Filter(xs, p), key, k);
    FilterCounts(Filter(xs, p), x => key(x) == k);
    assert forall x :: multiset(r)[x] == 0;
    assert multiset(r) == multiset{};
  }

  /** A subsequence of a sorted sequence is sorted. */
  lemma {:induction false} SubsequenceOfSorted<T>(a: seq<T>, b: seq<T>, key: T -> int)
    requires IsSubsequence(a, b) && SortedBy(b, key)
    ensures SortedBy(a, key)
    decreases |b|
  {
    if a != [] {
      if a[0] == b[0] && IsSubsequence(a[1..], b[1..]) {
        SubsequenceOfSorted(a[1..], b[1..], key);
        SubsequenceElements(a[1..], b[1..]);
        forall j | 0 < j < |a| ensures key(a[0]) <= key(a[j]) {
          assert a[j] == a[1..][j - 1];
          assert a[j] in b[1..];
          var k :| 0 <= k < |b[1..]| && b[1..][k] == a[j];
          assert b[k + 1] == a[j];
        }
      } else {
        SubsequenceOfSorted(a, b[1..], key);
      }
    }
  }

  /** Every element of a subsequence is an element of the whole. */
  lemma {:induction false} SubsequenceElements<T>(a: seq<T>, b: seq<T>)
    requires IsSubsequence(a, b)
    ensures forall x :: x in a ==> x in b
    decreases |b|
  {
    if a != [] {
      if a[0] == b[0] && IsSubsequence(a[1..], b[1..]) {
        SubsequenceElements(a[1..], b[1..]);
        assert a == [a[0]] + a[1..];
      } else {
        SubsequenceElements(a, b[1..]);
      }
    }
  }

  /** Inserting a new value into a strictly increasing sequence keeps it strictly increasing. */
  lemma {:induction false} InsertStrict(x: int, xs: seq<int>)
    requires StrictlyIncreasing(xs) && x !in xs
    ensures StrictlyIncreasing(Insert(x, xs, Identity))
  {
    if xs != [] && x > xs[0] {
      InsertStrict(x, xs[1..]);
    }
  }

  /** Sorting a sequence without duplicates by value gives a strictly increasing sequence. */
  lemma {:induction false} SortDistinctIsStrict(xs: seq<int>)
    requires NoDuplicates(xs)
    ensures StrictlyIncreasing(SortBy(xs, Identity))
  {
    if xs != [] {
      var rest := xs[1..];
      assert xs[0] !in rest;
      assert NoDuplicates(rest);
      SortDistinctIsStrict(rest);
      assert xs[0] !in multiset(SortBy(rest, Identity));
      InsertStrict(xs[0], SortBy(rest, Identity));
    }
  }

  /** The identity key, for sorting integers by value. */
  function Identity(x: int): int { x }

  /** `xs` with repeated values dropped, each value kept where it first occurs
      (what `Array.from(new Set(xs))` gives). */
  function Dedup<T(==,!new)>(xs: seq<T>): (r: seq<T>)
    ensures NoDuplicates(r)
    ensures forall x :: x in r <==> x in xs
    decreases |xs|
  {
    if xs == [] then []
    else
      var u := Dedup(xs[..|xs| - 1]);
      var last := xs[|xs| - 1];
      assert xs == xs[..|xs| - 1] + [last];
      if last in u then u else u + [last]
  }

  /** `xs` with the element at `idx` replaced by `a`: the indexed map
      `xs.map((x, i) => i === idx ? a : x)`. */
  function ReplaceAt<T>(xs: seq<T>, idx: int, a: T): (r: seq<T>)
    ensures r == if 0 <= idx < |xs| then xs[idx := a] else xs
  {
    if xs == [] then []
    else [if idx == 0 then a else xs[0]] + ReplaceAt(xs[1..], idx - 1, a)
  }

  /** `xs` without the element at `idx`: the indexed filter
      `xs.filter((_, i) => i !== idx)`. */
  function RemoveAt<T>(xs: seq<T>, idx: int): (r: seq<T>)
    ensures r == if 0 <= idx < |xs| then xs[..idx] + xs[idx + 1..] else xs
  {
    if xs == [] then []
    else (if idx == 0 then [] else [xs[0]]) + RemoveAt(xs[1..], idx - 1)
  }
}

=== FILE: state.dfy ===
/** The application's state: the three persisted slices (meetings, travel,
    assistant link) and the active date the schedule shows. */
module State {
  import opened Time
  import opened Records

  datatype AppState = AppState(
    meetings: seq<Meeting>,
    travel: seq<Travel>,
    gptUrl: string,
    activeDate: Instant)
}

=== FILE: store.dfy ===
/** Best-effort local persistence (`usePersistentState`): each slice lives
    under its own key of a string store, is read once at start-up with a
    fallback, and is written back after every change, ignoring failures. */
module Store {
  import opened Options

  type Storage = map<string, string>

  const StorageKey: string := "tradeshow-assistant-v1"
  const MeetingsKey: string := StorageKey + ":meetings"
  const TravelKey: string := StorageKey + ":travel"
  const GptUrlKey: string := StorageKey + ":gptUrl"

  /** The initial value of a slice: the decoded stored text, or `initial`
      when nothing (or the empty string) is stored or decoding fails. */
  function Load<T>(store: Storage, key: string, decode: string -> Option<T>, initial: T): (r: T)
    ensures key !in store || store[key] == "" ==> r == initial
    ensures key in store && decode(store[key]).None? ==> r == initial
    ensures key in store && store[key] != "" && decode(store[key]).Some? ==> r == decode(store[key]).value
  {
    if key in store && store[key] != "" then
      match decode(store[key])
      case Some(v) => v
      case None => initial
    else initial
  }

  /** Writing a slice back; when the write fails (`writable` false) the store is left as it was. */
  function Save<T>(store: Storage, key: string, encode: T -> string, value: T, writable: bool): (r: Storage)
    ensures r.Keys == store.Keys + (if writable then {key} else {})
    ensures forall k :: k in store && k != key ==> r[k] == store[k]
    ensures writable ==> r[key] == encode(value)
  {
    if writable then store[key := encode(value)] else store
  }

  /** A value saved under a key is what loading that key gives back, when the
      encoding is non-empty and decodes to the value. */
  lemma LoadAfterSave<T>(store: Storage, key: string, encode: T -> string, decode: string -> Option<T>, v: T, initial: T)
    requires encode(v) != "" && decode(encode(v)) == Some(v)
    ensures Load(Save(store, key, encode, v, true), key, decode, initial) == v
  {
  }

  /** Saving one slice never changes what another slice loads. */
  lemma SaveLeavesOtherKeys<T, U>(store: Storage, key: string, encode: T -> string, v: T, writable: bool,
                                  other: string, decode: string -> Option<U>, initial: U)
    requires other != key
    ensures Load(Save(store, key, encode, v, writable), other, decode, initial) == Load(store, other, decode, initial)
  {
  }

  /** The three slices are stored under three different keys. */
  lemma SliceKeysDistinct()
    ensures MeetingsKey != TravelKey && MeetingsKey != GptUrlKey && TravelKey != GptUrlKey
  {
    assert MeetingsKey[|StorageKey| + 1] == 'm';
    assert TravelKey[|StorageKey| + 1] == 't';
    assert GptUrlKey[|StorageKey| + 1] == 'g';
  }
}

=== FILE: time.dfy ===
/** Instants and local calendar days.  An instant is a count of
    milliseconds since the epoch; the local wall clock is the instant
    shifted by a fixed offset from UTC, so the local day of an instant is a
    whole number of days since 1970-01-01 local time. */
module Time {
  import Calendar

  type Instant = int

  const MsPerHour: int := 60 * 60 * 1000
  const MsPerDay: int := 24 * MsPerHour

  /** The local zone's offset from UTC: some fixed number of milliseconds,
      left open, so that everything below holds in every zone without
      daylight-saving changes. */
  const UtcOffsetMs: int

  /** The local day number of `t` (floor division: instants before the epoch
      belong to negative days). */
  function LocalDay(t: Instant): int
  {
    (t + UtcOffsetMs) / MsPerDay
  }

  /** The local (year, month, day) of `t`. */
  function LocalDate(t: Instant): (r: Calendar.Date)
    ensures Calendar.ValidDate(r)
    ensures Calendar.DaysFromCivil(r) == LocalDay(t)
  {
    Calendar.CivilRoundTrip(LocalDay(t));
    Calendar.CivilFromDays(LocalDay(t))
  }

  /** `a` and `b` fall on the same local calendar day. */
  predicate SameDay(a: Instant, b: Instant)
  {
    LocalDay(a) == LocalDay(b)
  }

  /** Comparing local day numbers is comparing the local (year, month, day)
      triples, which is how the application compares days. */
  lemma SameDayIffSameDate(a: Instant, b: Instant)
    ensures SameDay(a, b) <==> LocalDate(a) == LocalDate(b)
  {
    Calendar.CivilInjective(LocalDay(a), LocalDay(b));
  }

  /** `SameDay` is an equivalence relation on instants. */
  lemma SameDayIsEquivalence(a: Instant, b: Instant, c: Instant)
    ensures SameDay(a, a)
    ensures SameDay(a, b) ==> SameDay(b, a)
    ensures SameDay(a, b) && SameDay(b, c) ==> SameDay(a, c)
  {
  }

  /** Local midnight at the start of the day of `t`. */
  function LocalMidnight(t: Instant): (r: Instant)
    ensures r <= t < r + MsPerDay
    ensures LocalDay(r) == LocalDay(t)
    ensures SameDay(r, t)
    ensures forall u :: SameDay(u, t) ==> r <= u
  {
    LocalDay(t) * MsPerDay - UtcOffsetMs
  }

  /** Two instants have the same local midnight exactly when they fall on the same day. */
  lemma SameMidnightIffSameDay(a: Instant, b: Instant)
    ensures LocalMidnight(a) == LocalMidnight(b) <==> SameDay(a, b)
  {
  }

  /** Local `hour`:00:00.000 on the day of `t` (what `setHours(hour, 0, 0, 0)` gives). */
  function AtLocalHour(t: Instant, hour: nat): (r: Instant)
    requires hour < 24
    ensures SameDay(r, t)
    ensures r - LocalMidnight(t) == hour * MsPerHour
  {
    var r := LocalMidnight(t) + hour * MsPerHour;
    assert LocalDay(r) == LocalDay(t);
    r
  }
}

=== FILE: transfer.dfy ===
/** Import and export of the three persisted slices as one JSON document
    (`ImportExport` and the main component's `onImport`). */
module Transfer {
  import opened Options
  import opened Records
  import opened State
  import opened Js

  /** What parsing the uploaded file gave.  `Unreadable` is a file that is not
      JSON, or whose JSON is `null` or a bare number, string or boolean: all of
      these end in the error alert; a top-level array is an `Object` with none
      of the keys.  For `meetings` and `travel` only truthiness matters, so
      `None` stands for a key that is missing or holds a falsy value (a
      present array, even an empty one, is truthy); `gptUrl` is `None` only
      when the key is missing. */
  datatype Document =
    | Unreadable
    | Object(meetings: Option<seq<Meeting>>, travel: Option<seq<Travel>>, gptUrl: Option<Json>)

  /** The exported document `{ meetings, travel, gptUrl }`. */
  function Export(s: AppState): (d: Document)
    ensures d.Object? && d.meetings == Some(s.meetings) && d.travel == Some(s.travel)
    ensures d.gptUrl == Some(Text(s.gptUrl))
  {
    Object(Some(s.meetings), Some(s.travel), Some(Text(s.gptUrl)))
  }

  /** `onImport(m, t, g)`: replace each slice given; the link only when `g` is a string. */
  function OnImport(s: AppState, m: Option<seq<Meeting>>, t: Option<seq<Travel>>, g: Option<Json>): (r: AppState)
    ensures r.meetings == (if m.Some? then m.value else s.meetings)
    ensures r.travel == (if t.Some? then t.value else s.travel)
    ensures r.gptUrl == (if g.Some? && g.value.Text? then g.value.s else s.gptUrl)
    ensures r.activeDate == s.activeDate
  {
    var s1 := if m.Some? then s.(meetings := m.value) else s;
    var s2 := if t.Some? then s1.(travel := t.value) else s1;
    if g.Some? && g.value.Text? then s2.(gptUrl := g.value.s) else s2
  }

  /** `onFile`: apply the uploaded document slice by slice. */
  function ImportFile(s: AppState, doc: Document): (r: AppState)
    ensures doc.Unreadable? ==> r == s
    ensures r.activeDate == s.activeDate
    ensures doc.Object? ==>
              && r.meetings == (if doc.meetings.Some? then doc.meetings.value else s.meetings)
              && r.travel == (if doc.travel.Some? then doc.travel.value else s.travel)
    ensures doc.Object? && doc.gptUrl.None? ==> r.gptUrl == s.gptUrl
    ensures doc.Object? && doc.gptUrl.Some? ==>
              r.gptUrl == match doc.gptUrl.value
                          case Text(link) => link
                          case v => if Truthy(v) then s.gptUrl else ""
  {
    match doc
    case Unreadable => s
    case Object(m, t, g) =>
      var s1 := if m.Some? then OnImport(s, m, None, None) else s;
      var s2 := if t.Some? then OnImport(s1, None, t, None) else s1;
      if g.Some? then OnImport(s2, None, None, Some(Or(g.value, Text("")))) else s2
  }

  /** Importing an exported document restores all three slices, whatever
      the state it is imported into. */
  lemma ImportExportRoundTrip(s: AppState, into: AppState)
    ensures ImportFile(into, Export(s)) == s.(activeDate := into.activeDate)
  {
  }

  /** A document holding only travel replaces the travel list and nothing else. */
  lemma TravelOnlyImport(s: AppState, t: seq<Travel>)
    ensures ImportFile(s, Object(None, Some(t), None)) == s.(travel := t)
  {
  }

  /** Importing the same document twice is importing it once. */
  lemma ImportIdempotent(s: AppState, doc: Document)
    ensures ImportFile(ImportFile(s, doc), doc) == ImportFile(s, doc)
  {
  }
}
